=== FILE: README.md ===
# Train / validation / test split, modelled in Dafny

`train_test_split.py` splits a labelled image dataset into three groups. It
checks that the three percentages add up to 1.0 within 1e-6. It checks that the
data root is a folder. It then creates the six output folders
`data/{train,validation,test}/{images,labels}` under the working directory. It
shuffles the list of images and computes `train_num = int(N * train_pct)` and
`val_num = int(N * val_pct)`; the test group takes the rest. It slices the
shuffled list into three contiguous groups. Finally it copies each image into
its group's image folder under its own name, and copies its label
`labels/<stem>.txt` into the group's label folder when that label exists.

The model has one module per step:

- `Paths` (`paths.dfy`): paths as component sequences, pathlib's `name` and
  `stem`, and a file-system snapshot for `os.path.isdir` / `os.path.exists`.
- `Config` (`config.dfy`): the percentages and the sum check.
- `Partition` (`partition.dfy`): Python's `int()` truncation, the counts,
  Python slicing (negative and out-of-range bounds included), and the three
  slices.
- `Shuffle` (`shuffle.dfy`): `random.shuffle` as CPython's in-place
  Fisher–Yates walk. The random draws are a parameter (`draw(i)` is the index
  picked at step `i`, at most `i`).
- `CopyPlan` (`copy_plan.dfy`): the output layout and the nested copy loop,
  which appends `CopyFile(src, dir, name)` effects to a log.
- `Pipeline` (`pipeline.dfy`): the whole run as a method whose result is an
  outcome (`ConfigError(sum)`, `NotFoundError` or `Done(counts)`) plus the
  ordered log of effects (`MakeDirs`, `CopyFile`).

Each method is proved equal to a specification function (`Shuffled`,
`GroupCopies`, `Plan`, `RunOutcome`, `RunLog`). The properties are proved as
lemmas about those functions.

Where the script behaves in ways a reader might not expect, the model follows the script:

- The data-root gate is `os.path.isdir`, not "exists". A path that exists but
  is a file is rejected.
- The percentages are never checked to be non-negative.
- `int()` truncates toward zero and slices clamp. The model reproduces both,
  so `ComputeCounts` and `Split` need no preconditions. The lemmas that need
  non-negative shares ask for them.
- "Test exceeds its share by up to 2" holds only for sums of exactly 1.0. With
  a sum the gate accepts (up to 1 + 1e-6) and enough images, the test count
  comes out negative. `ToleranceOverrun` gives 2^21 images with shares
  0.5 + 2^-21, 0.5 + 2^-21 and 0: the counts are 1048577, 1048577 and −2.
  These values are binary fractions that doubles hold exactly, so the script
  computes the same counts. The slices still cover the list because slicing
  clamps (`SplitConcatenates`). The report no longer matches the groups,
  though. Below a million images this cannot happen
  (`TestNonNegativeBelowMillion`).

## Model

| member | source | states |
|---|---|---|
| `Paths.Name` | train_test_split.py:79 | a non-empty path is its folder followed by its name, the last component |
| `Paths.LastDot` | train_test_split.py:80 | the result is the index of the last '.' in the name (no '.' after it), or -1 when there is none |
| `Paths.Stem` | train_test_split.py:80 | the stem is a prefix of the name; it is shorter exactly when a last '.' lies strictly inside the name, and it then stops right before that '.' |
| `Config.ValidateSum` | train_test_split.py:22-26 | the percentages pass exactly when their sum lies in [1 − 1e-6, 1 + 1e-6]; a failure carries the computed sum |
| `Config.SumCheckExamples` | train_test_split.py:23-24 | 0.7/0.2/0.1 and a sum of exactly 1 + 1e-6 pass; sums of 0.99999 and 1.1 fail and report that sum |
| `Partition.Trunc` | train_test_split.py:58-59 | `int()` on a float rounds toward zero: for x ≥ 0 the result is in (x − 1, x], for x < 0 in [x, x + 1) |
| `Partition.ComputeCounts` | train_test_split.py:57-60 | the three counts always add up to N |
| `Partition.CountsAreFlooredShares` | train_test_split.py:58-59 | with non-negative shares, `train_num` and `val_num` are the floors of N·share and are non-negative |
| `Partition.TestAbsorbsRemainder` | train_test_split.py:58-60 | with non-negative shares summing to exactly 1, all counts are non-negative and N·test_pct ≤ test_num < N·test_pct + 2 |
| `Partition.TestNonNegativeBelowMillion` | train_test_split.py:58-60 | for N below 10^6 and any non-negative shares the sum check accepts, train_num + val_num ≤ N and test_num ≥ 0 |
| `Partition.ToleranceOverrun` | train_test_split.py:58-60 | 2^21 images with shares 0.5 + 2^-21, 0.5 + 2^-21 and 0 pass the sum check yet yield counts 1048577/1048577/−2; the values are exact in doubles |
| `Partition.CountExamples` | train_test_split.py:57-60 | 10 images at 0.7/0.2/0.1 give 7/2/1; 3 images give 2/0/1; 3 images at 0.5/0.5/0 give one test image |
| `Partition.PySlice` | train_test_split.py:66-68 | a slice is never longer than the list, and for in-range bounds it is exactly `s[lo..hi]` |
| `Partition.Split` | train_test_split.py:66-68 | whatever the counts, the train group is a prefix of the shuffled list and the test group a suffix; `SplitConcatenates`, `SplitLengths` and `GroupsPartitionInput` state the rest |
| `Partition.SplitConcatenates` | train_test_split.py:66-68 | whenever train_num, val_num ≥ 0, train + val + test is the shuffled list itself, so each position is in exactly one group |
| `Partition.SplitLengths` | train_test_split.py:66-68 | when 0 ≤ train_num, 0 ≤ val_num and train_num + val_num ≤ N, the slices have lengths train_num, val_num and N − train_num − val_num |
| `Partition.GroupSizesMatchCounts` | train_test_split.py:57-68 | with non-negative shares summing to 1, every group's size equals its computed count |
| `Partition.GroupsArePermutation` | train_test_split.py:55-68 | for non-negative train and validation counts, splitting any permutation of the input gives groups whose multiset union is the input multiset |
| `Partition.GroupsPartitionInput` | train_test_split.py:54-68 | for non-negative train and validation counts and distinct discovered paths, the groups are pairwise disjoint and their union is exactly the set of discovered images |
| `Shuffle.SwapPermutes` | train_test_split.py:55 | exchanging two elements keeps the multiset |
| `Shuffle.FisherYates` | train_test_split.py:55 | the steps from `i` down to 1 keep the list's length; `FisherYatesPermutes` proves they keep its multiset |
| `Shuffle.FisherYatesPermutes` | train_test_split.py:55 | whatever the draws, the Fisher–Yates steps return a permutation of the input |
| `Shuffle.Shuffled` | train_test_split.py:55 | the shuffled list has the same multiset as the input |
| `Shuffle.ShuffleInPlace` | train_test_split.py:55 | the array afterwards is `Shuffled` of its old contents, hence a permutation of them |
| `CopyPlan.OutputDirsDistinct` | train_test_split.py:40-45 | the six output folders are pairwise different; no image folder is a label folder |
| `CopyPlan.OutputDirs` | train_test_split.py:40-45 | six folders, one image and one label folder per group, pairwise different |
| `CopyPlan.LabelName` | train_test_split.py:80-81 | the label's file name `<stem>.txt`; `LabelNameShape` states its form |
| `CopyPlan.LabelNameShape` | train_test_split.py:80-81 | the label's file name ends in `.txt`, and what comes before is a prefix of the image's own name |
| `CopyPlan.LabelSource` | train_test_split.py:81 | the label path starts with the data root, followed by the folder `labels` and the label name |
| `CopyPlan.ItemCopies` | train_test_split.py:79-86 | one image gives one or two copies, two exactly when its label exists, and each copy keeps its source's file name |
| `CopyPlan.GroupCopies` | train_test_split.py:78-86 | a group's copies number between one and two per image; `ImagesCopiedOnce`, `LabelsCopiedWhenPresent` and `CopiesKeepNamesAndGroup` state what they copy where |
| `CopyPlan.Plan` | train_test_split.py:70-86 | all copies of a run; `PlanByGroup`, `PlanOnlyCopies` and `PlanCopiesPerGroup` state their order and destinations |
| `CopyPlan.PlanOnlyCopies` | train_test_split.py:77-86 | the copy loop creates no folders: every effect of the plan is a copy |
| `CopyPlan.CopyGroup` | train_test_split.py:78-86 | the inner loop issues exactly `GroupCopies` for the group: per image, its copy, then its label copy if the label exists |
| `CopyPlan.CopyAll` | train_test_split.py:70-86 | the nested loop issues the train copies, then the validation copies, then the test copies |
| `CopyPlan.PlanByGroup` | train_test_split.py:70-77 | the plan is the three groups' copies in train, validation, test order |
| `CopyPlan.CopiedIntoAppend` | train_test_split.py:77-86 | what lands in a folder from two logs in a row is what lands from the first, then from the second |
| `CopyPlan.ItemCopiedIntoDir` | train_test_split.py:79-86 | one image's copies put the image into its group's image folder and, only if its label exists, the label into the group's label folder |
| `CopyPlan.ImagesCopiedOnce` | train_test_split.py:78-83 | the copies into a group's image folder are exactly that group's images, each once, in order |
| `CopyPlan.LabelsCopiedWhenPresent` | train_test_split.py:79-86 | a group's label folder receives exactly the existing labels of its images, in order; a missing label contributes nothing |
| `CopyPlan.NothingIntoOtherGroups` | train_test_split.py:77-86 | a group copies nothing into another group's image or label folder |
| `CopyPlan.CopiesKeepNamesAndGroup` | train_test_split.py:79-86 | every copy keeps the file's name and lands in its own group's image folder (from one of its images) or label folder (from an existing file) |
| `CopyPlan.LabelCopyIffExists` | train_test_split.py:81-86 | for an image of the group, the copy of `labels/<stem>.txt` to `<label folder>/<stem>.txt` is issued exactly when that label exists |
| `CopyPlan.PlanCopiesPerGroup` | train_test_split.py:70-86 | over the whole plan, each group's image folder receives exactly its images and its label folder exactly their existing labels |
| `CopyPlan.PlanIntoOwnFolder` | train_test_split.py:70-86 | over the whole plan, a group's image or label folder receives only what that group's own copies put there |
| `CopyPlan.PlanImageCounts` | train_test_split.py:70-83 | each image folder receives as many copies as its group has images |
| `CopyPlan.PlanCopiesEveryImage` | train_test_split.py:70-86 | across the three image folders the plan copies every member of every group exactly once |
| `Pipeline.RunOutcome` | train_test_split.py:22-32 | a run fails with the sum exactly when the sum check fails; otherwise it fails exactly when the data root is not a folder; a completed run reports counts that sum to N |
| `Pipeline.MakeAll` | train_test_split.py:48-51 | creating a list of folders issues one `MakeDirs` per folder, in order |
| `Pipeline.RunLog` | train_test_split.py:22-51 | a run stopped by either gate has no effects at all, so no output folder is created |
| `Pipeline.Run` | train_test_split.py:22-86 | the run's outcome is `RunOutcome` and its effects are `RunLog` |
| `Pipeline.ShuffleImages` | train_test_split.py:54-55 | the list is `Shuffled` of the discovered images, a permutation of them |
| `Pipeline.MakeOutputDirs` | train_test_split.py:47-51 | the loop creates the six output folders in order |
| `Pipeline.NoCopiesInMakeDirs` | train_test_split.py:47-51 | creating folders copies nothing into any folder |
| `Pipeline.RunCopiedInto` | train_test_split.py:47-86 | in a completed run, what lands in a folder is exactly what the copy plan for the shuffled groups puts there |
| `Pipeline.DirsBeforeCopies` | train_test_split.py:47-86 | a completed run first creates the six output folders and only copies after that |
| `Pipeline.EveryImageCopiedOnce` | train_test_split.py:54-86 | with non-negative train and val shares, the three image folders together receive every discovered image exactly as often as it was discovered |
| `Pipeline.ReportedCountsMatchCopies` | train_test_split.py:57-86 | with non-negative shares summing to 1, each image folder receives as many copies as the count reported for that group |
| `Pipeline.LabelsFollowTheirImages` | train_test_split.py:77-86 | in a completed run each group's label folder receives exactly the existing labels of the images in its image folder |

## Left out

- Argument parsing (lines 11-20). The percentages, the data root and the working directory are parameters.
- Printed messages and exit codes (lines 25-26, 31-32, 62-63, 88). The run's `Outcome` records which error stopped it, with the sum for a bad sum, or the reported counts.
- Real file-system effects (`os.makedirs`, `shutil.copy`). They are recorded as `MakeDirs` / `CopyFile` effects in a log. The log does not model overwriting existing files, I/O errors during copying, or a run killed halfway. Nor does it model overwriting within one run: `rglob` is recursive, so two images of a group can share a file name from different subfolders, and both copies go to the same destination, the later one replacing the earlier; two images sharing a stem likewise copy the same label twice. `CopiedInto` lists the copies issued into a folder, not the files left in it, so `ImagesCopiedOnce`, `PlanImageCounts` and `ReportedCountsMatchCopies` count copies, not files.
- `os.path.isdir` and `os.path.exists` read a `FileSystem` snapshot taken before the run. The folders and files the run itself creates are not fed back into later `exists` checks.
- `Path.rglob('*')` (line 54). The discovered list is an input sequence. Its order does not matter, because it is shuffled. Directory entries that rglob would also return are whatever the caller puts in the list. For such an entry `shutil.copy` at line 83 raises. The model issues an ordinary copy for it instead.
- The randomness of `random.shuffle` (line 55). Any sequence of draws is allowed. The model proves a permutation, not a uniform distribution.
- Floating point. Percentages and products are exact reals. In floats, for example, 0.7 + 0.2 + 0.1 is not exactly 1.0, but it is within the tolerance either way. Rounding of the products can change a count: with N = 100 and a train share of 0.29 the double product is 28.999999999999996, so the script's `train_num` is 28 while `ComputeCounts` gives 29. `CountsAreFlooredShares`, `CountExamples` and the other count lemmas hold of exact reals. NaN and infinite percentages are not modelled. A NaN sum (also inf + (−inf)) passes the check at line 24, because every comparison with NaN is false. The script then creates the six folders (lines 48-51); it raises at line 58 or 59 when the train or validation share is not finite, and completes an ordinary run when only the test share is NaN. So the "fails exactly when" guarantees of `RunOutcome` and `RunLog` hold only for finite percentages whose products with N stay finite (with 1e308, −1e308 and 1.0 at N = 2 the sum passes, the folders are created, and `int(inf)` raises at line 58, while the model completes).
- pathlib's full rules for `name` and `stem`. A path is a sequence of components, so separators and normalisation are not modelled. `stem` follows the last-dot rule only.
- Partition.TestAbsorbsRemainder: assumes a sum of exactly 1.0 rather than any sum the check accepts. With the tolerance the bound fails for large N (see `ToleranceOverrun`), and `TestNonNegativeBelowMillion` covers accepted sums below a million images.

=== FILE: config.dfy ===
/**
 * The configuration gate: the three percentages from the command line and
 * the check that they add up to 1.0.
 */
module Config {

  /** The shares asked for with `--train_pct`, `--val_pct` and `--test_pct`. */
  datatype Proportions = Proportions(train: real, val: real, test: real)

  /** The absolute tolerance the sum check allows, `1e-6`. */
  const Tolerance: real := 0.000001

  /** The sum the script computes and reports. */
  function Total(p: Proportions): real
  {
    p.train + p.val + p.test
  }

  function Abs(x: real): real
  {
    if x < 0.0 then -x else x
  }

  /** The outcome of the sum check; a failure carries the sum that was computed. */
  datatype SumCheck = SumOk | SumError(total: real)

  /** The sum check: the proportions pass exactly when their sum lies within `Tolerance` of 1.0. */
  function ValidateSum(p: Proportions): (r: SumCheck)
    ensures r.SumOk? <==> 1.0 - Tolerance <= Total(p) <= 1.0 + Tolerance
    ensures r.SumError? ==> r.total == Total(p)
  {
    var total := p.train + p.val + p.test;
    if Abs(total - 1.0) > Tolerance then SumError(total) else SumOk
  }

  /** Sample verdicts: the defaults pass, a sum off by 1e-5 or one of 1.1 fails and reports that sum. */
  lemma SumCheckExamples()
    ensures ValidateSum(Proportions(0.7, 0.2, 0.1)) == SumOk
    ensures ValidateSum(Proportions(0.5, 0.25, 0.250001)) == SumOk
    ensures ValidateSum(Proportions(0.7, 0.2, 0.09999)) == SumError(0.99999)
    ensures ValidateSum(Proportions(0.8, 0.2, 0.1)) == SumError(1.1)
  {
  }
}

=== FILE: copy_plan.dfy ===
/**
 * The output layout and the copies the script issues: each image into its
 * group's image folder under its own name, and its label `<stem>.txt` into
 * the group's label folder when that label exists.
 */
module CopyPlan {
  import opened Paths
  import opened Partition

  /** The three groups, in the order the copy loop visits them. */
  datatype Group = Train | Validation | Test

  /** The folder name of a group under `data/`. */
  function Folder(g: Group): string
  {
    match g
    case Train => "train"
    case Validation => "validation"
    case Test => "test"
  }

  /** `<cwd>/data/<group>/images`. */
  function ImageDir(cwd: Path, g: Group): Path
  {
    cwd + ["data", Folder(g), "images"]
  }

  /** `<cwd>/data/<group>/labels`. */
  function LabelDir(cwd: Path, g: Group): Path
  {
    cwd + ["data", Folder(g), "labels"]
  }

  /** The six output folders, in the order they are created: one image and one label folder per group, all different. */
  function OutputDirs(cwd: Path): (dirs: seq<Path>)
    ensures |dirs| == 6
    ensures forall g :: ImageDir(cwd, g) in dirs && LabelDir(cwd, g) in dirs
    ensures forall i, j | 0 <= i < j < |dirs| :: dirs[i] != dirs[j]
  {
    AllOutputDirsDistinct(cwd);
    [ImageDir(cwd, Train), LabelDir(cwd, Train),
     ImageDir(cwd, Validation), LabelDir(cwd, Validation),
     ImageDir(cwd, Test), LabelDir(cwd, Test)]
  }

  /** The six output folders are six different folders, and no image folder is a label folder. */
  lemma OutputDirsDistinct(cwd: Path, g: Group, h: Group)
    ensures ImageDir(cwd, g) != LabelDir(cwd, h)
    ensures g != h ==> ImageDir(cwd, g) != ImageDir(cwd, h) && LabelDir(cwd, g) != LabelDir(cwd, h)
  {
    assert ImageDir(cwd, g)[|cwd| + 2] != LabelDir(cwd, h)[|cwd| + 2];
    if g != h {
      assert ImageDir(cwd, g)[|cwd| + 1] != ImageDir(cwd, h)[|cwd| + 1];
      assert LabelDir(cwd, g)[|cwd| + 1] != LabelDir(cwd, h)[|cwd| + 1];
    }
  }

  /** Every image folder differs from every label folder, and different groups have different folders. */
  lemma AllOutputDirsDistinct(cwd: Path)
    ensures forall g, h :: ImageDir(cwd, g) != LabelDir(cwd, h)
    ensures forall g, h | g != h :: ImageDir(cwd, g) != ImageDir(cwd, h) && LabelDir(cwd, g) != LabelDir(cwd, h)
  {
    forall g, h
      ensures ImageDir(cwd, g) != LabelDir(cwd, h)
      ensures g != h ==> ImageDir(cwd, g) != ImageDir(cwd, h) && LabelDir(cwd, g) != LabelDir(cwd, h)
    {
      OutputDirsDistinct(cwd, g, h);
    }
  }

  /** The file name of the label an image pairs with: `<stem>.txt`, where the stem begins the image's own name. */
  function LabelName(img: Path): string
  {
    Stem(Name(img)) + ".txt"
  }

  /** A label's file name ends in `.txt`, and what comes before is a prefix of the image's own name. */
  lemma LabelNameShape(img: Path)
    ensures var r := LabelName(img); 4 <= |r| && r[|r| - 4..] == ".txt" && r[..|r| - 4] <= Name(img)
  {
    var r := LabelName(img);
    assert r[..|r| - 4] == Stem(Name(img));
  }

  /** Where the label of `img` is looked for: `<datapath>/labels/<stem>.txt`. */
  function LabelSource(datapath: Path, img: Path): (r: Path)
    ensures datapath <= r
    ensures |r| == |datapath| + 2 && r[|datapath|] == "labels"
    ensures Name(r) == LabelName(img)
  {
    datapath + ["labels", LabelName(img)]
  }

  /**
   * What a run does to the disk: create a folder (if absent), or copy a file
   * to the path `dir` joined with `name`.
   */
  datatype Effect = MakeDirs(dir: Path) | CopyFile(src: Path, dir: Path, name: string)

  /** The inputs the copy loop reads besides the groups: the data root, the output root and the disk. */
  datatype Env = Env(datapath: Path, cwd: Path, fs: FileSystem)

  /** The copies issued for one image of group `g`: the image, then its label if it exists. */
  function ItemCopies(env: Env, g: Group, img: Path): (r: seq<Effect>)
    ensures 1 <= |r| <= 2
    ensures forall e | e in r :: e.CopyFile? && e.name == Name(e.src)
    ensures |r| == 2 <==> Exists(env.fs, LabelSource(env.datapath, img))
  {
    var txt := LabelSource(env.datapath, img);
    [CopyFile(img, ImageDir(env.cwd, g), Name(img))]
    + (if Exists(env.fs, txt) then [CopyFile(txt, LabelDir(env.cwd, g), LabelName(img))] else [])
  }

  /** The copies issued for the images `files` of group `g`, in order. */
  function GroupCopies(env: Env, g: Group, files: seq<Path>): (r: seq<Effect>)
    ensures |files| <= |r| <= 2 * |files|
  {
    if files == [] then []
    else GroupCopies(env, g, files[..|files| - 1]) + ItemCopies(env, g, files[|files| - 1])
  }

  /** The groups paired with their group names, in the order the copy loop visits them. */
  function Splits(groups: Groups<Path>): seq<(seq<Path>, Group)>
  {
    [(groups.train, Train), (groups.val, Validation), (groups.test, Test)]
  }

  /** The copies issued for a sequence of groups, in order. */
  function SplitsCopies(env: Env, splits: seq<(seq<Path>, Group)>): seq<Effect>
  {
    if splits == [] then []
    else SplitsCopies(env, splits[..|splits| - 1]) + GroupCopies(env, splits[|splits| - 1].1, splits[|splits| - 1].0)
  }

  /** All copies of a run: train, then validation, then test. */
  function Plan(env: Env, groups: Groups<Path>): seq<Effect>
  {
    SplitsCopies(env, Splits(groups))
  }

  /** The images of one group. */
  function Members(groups: Groups<Path>, g: Group): seq<Path>
  {
    match g
    case Train => groups.train
    case Validation => groups.val
    case Test => groups.test
  }

  /** The inner copy loop for one group: for each image, copy it, then its label if present. */
  method CopyGroup(env: Env, g: Group, files: seq<Path>) returns (log: seq<Effect>)
    ensures log == GroupCopies(env, g, files)
  {
    log := [];
    for k := 0 to |files|
      invariant log == GroupCopies(env, g, files[..k])
    {
      var img := files[k];
      var txt := LabelSource(env.datapath, img);
      ghost var done := log;
      log := log + [CopyFile(img, ImageDir(env.cwd, g), Name(img))];
      if Exists(env.fs, txt) {
        log := log + [CopyFile(txt, LabelDir(env.cwd, g), LabelName(img))];
      }
      AppendItemCopies(env, g, img, done);
      GroupCopiesStep(env, g, files, k);
    }
    assert files[..|files|] == files;
  }

  /** Appending one image's copies to a log: the image copy, then the label copy if the label exists. */
  lemma AppendItemCopies(env: Env, g: Group, img: Path, done: seq<Effect>)
    ensures var txt := LabelSource(env.datapath, img);
      var first := done + [CopyFile(img, ImageDir(env.cwd, g), Name(img))];
      done + ItemCopies(env, g, img)
      == if Exists(env.fs, txt) then first + [CopyFile(txt, LabelDir(env.cwd, g), LabelName(img))] else first
  {
  }

  /** Extending the images by one extends their copies by that image's copies. */
  lemma GroupCopiesStep(env: Env, g: Group, files: seq<Path>, k: nat)
    requires k < |files|
    ensures GroupCopies(env, g, files[..k + 1]) == GroupCopies(env, g, files[..k]) + ItemCopies(env, g, files[k])
  {
    assert files[..k + 1][..k] == files[..k];
  }

  /** Extending the groups by one extends their copies by that group's copies. */
  lemma SplitsCopiesStep(env: Env, splits: seq<(seq<Path>, Group)>, s: nat)
    requires s < |splits|
    ensures SplitsCopies(env, splits[..s + 1]) == SplitsCopies(env, splits[..s]) + GroupCopies(env, splits[s].1, splits[s].0)
  {
    assert splits[..s + 1][..s] == splits[..s];
  }

  /** The copy loop: walks the three groups in order and issues each group's copies. */
  method CopyAll(env: Env, groups: Groups<Path>) returns (log: seq<Effect>)
    ensures log == Plan(env, groups)
    ensures log == GroupCopies(env, Train, groups.train) + GroupCopies(env, Validation, groups.val)
                   + GroupCopies(env, Test, groups.test)
  {
    var splits := Splits(groups);
    log := [];
    for s := 0 to |splits|
      invariant log == SplitsCopies(env, splits[..s])
    {
      var (files, g) := splits[s];
      var copies := CopyGroup(env, g, files);
      log := log + copies;
      SplitsCopiesStep(env, splits, s);
    }
    assert splits[..|splits|] == splits;
    PlanByGroup(env, groups);
  }

  /** The plan is the copies of the three groups one after the other. */
  lemma PlanByGroup(env: Env, groups: Groups<Path>)
    ensures Plan(env, groups) == GroupCopies(env, Train, groups.train) + GroupCopies(env, Validation, groups.val)
                                 + GroupCopies(env, Test, groups.test)
  {
    var s := Splits(groups);
    var a := GroupCopies(env, Train, groups.train);
    var b := GroupCopies(env, Validation, groups.val);
    var c := GroupCopies(env, Test, groups.test);
    assert s[..1][..0] == [];
    assert SplitsCopies(env, s[..1]) == a;
    assert s[..2][..1] == s[..1];
    assert SplitsCopies(env, s[..2]) == a + b;
    assert s[..2] == s[..|s| - 1];
    assert SplitsCopies(env, s) == a + b + c;
  }

  /** The sources of the copies in `log` whose destination sits directly in `dir`, in order. */
  function CopiedInto(log: seq<Effect>, dir: Path): seq<Path>
  {
    if log == [] then []
    else
      var e := log[|log| - 1];
      CopiedInto(log[..|log| - 1], dir) + (if e.CopyFile? && e.dir == dir then [e.src] else [])
  }

  lemma {:induction false} CopiedIntoAppend(a: seq<Effect>, b: seq<Effect>, dir: Path)
    ensures CopiedInto(a + b, dir) == CopiedInto(a, dir) + CopiedInto(b, dir)
    decreases |b|
  {
    if b != [] {
      assert (a + b)[..|a + b| - 1] == a + b[..|b| - 1];
      CopiedIntoAppend(a, b[..|b| - 1], dir);
    } else {
      assert a + b == a;
    }
  }

  /**
   * Into its own image folder a group copies each of its images exactly once,
   * in order, and nothing else.
   */
  lemma {:induction false} ImagesCopiedOnce(env: Env, g: Group, files: seq<Path>)
    ensures CopiedInto(GroupCopies(env, g, files), ImageDir(env.cwd, g)) == files
    decreases |files|
  {
    if files != [] {
      var init, img := files[..|files| - 1], files[|files| - 1];
      ImagesCopiedOnce(env, g, init);
      ItemImageCopied(env, g, img);
      GroupCopiedIntoStep(env, g, files, ImageDir(env.cwd, g));
      DropLastAppend(files);
    }
  }

  /** A non-empty sequence is its prefix without the last element, followed by that element. */
  lemma DropLastAppend<T>(s: seq<T>)
    requires s != []
    ensures s[..|s| - 1] + [s[|s| - 1]] == s
  {
  }

  /** One image's copies put exactly that image into its group's image folder. */
  lemma ItemImageCopied(env: Env, g: Group, img: Path)
    ensures CopiedInto(ItemCopies(env, g, img), ImageDir(env.cwd, g)) == [img]
  {
    OutputDirsDistinct(env.cwd, g, g);
    ItemCopiedIntoDir(env, g, img, ImageDir(env.cwd, g));
  }

  /** What lands in a folder from a group's copies: what lands from all but its last image, then from its last image. */
  lemma GroupCopiedIntoStep(env: Env, g: Group, files: seq<Path>, dir: Path)
    requires files != []
    ensures CopiedInto(GroupCopies(env, g, files), dir)
            == CopiedInto(GroupCopies(env, g, files[..|files| - 1]), dir) + CopiedInto(ItemCopies(env, g, files[|files| - 1]), dir)
  {
    CopiedIntoAppend(GroupCopies(env, g, files[..|files| - 1]), ItemCopies(env, g, files[|files| - 1]), dir);
  }

  /** Taking the sources of a one-element log. */
  lemma CopiedIntoSingle(e: Effect, dir: Path)
    ensures CopiedInto([e], dir) == if e.CopyFile? && e.dir == dir then [e.src] else []
  {
    assert [e][..0] == [];
  }

  /** The copies of one image land in the group's image folder and, if the label exists, in its label folder. */
  lemma ItemCopiedIntoDir(env: Env, g: Group, img: Path, dir: Path)
    ensures CopiedInto(ItemCopies(env, g, img), dir)
            == (if dir == ImageDir(env.cwd, g) then [img] else [])
               + (if Exists(env.fs, LabelSource(env.datapath, img)) && dir == LabelDir(env.cwd, g)
                  then [LabelSource(env.datapath, img)] else [])
  {
    var txt := LabelSource(env.datapath, img);
    var first := CopyFile(img, ImageDir(env.cwd, g), Name(img));
    var second := CopyFile(txt, LabelDir(env.cwd, g), LabelName(img));
    var rest := if Exists(env.fs, txt) then [second] else [];
    assert ItemCopies(env, g, img) == [first] + rest;
    CopiedIntoAppend([first], rest, dir);
    CopiedIntoSingle(first, dir);
    if Exists(env.fs, txt) {
      CopiedIntoSingle(second, dir);
    }
  }

  /** The label files that exist for the images `files`, in order. */
  function ExistingLabels(env: Env, files: seq<Path>): seq<Path>
  {
    if files == [] then []
    else
      var txt := LabelSource(env.datapath, files[|files| - 1]);
      ExistingLabels(env, files[..|files| - 1]) + (if Exists(env.fs, txt) then [txt] else [])
  }

  /**
   * Into its own label folder a group copies exactly the labels that exist
   * for its images, each once, in order; an image without a label adds nothing.
   */
  lemma {:induction false} LabelsCopiedWhenPresent(env: Env, g: Group, files: seq<Path>)
    ensures CopiedInto(GroupCopies(env, g, files), LabelDir(env.cwd, g)) == ExistingLabels(env, files)
    decreases |files|
  {
    if files != [] {
      var init, img := files[..|files| - 1], files[|files| - 1];
      var dir := LabelDir(env.cwd, g);
      var txt := LabelSource(env.datapath, img);
      assert CopiedInto(GroupCopies(env, g, init), dir) == ExistingLabels(env, init) by {
        LabelsCopiedWhenPresent(env, g, init);
      }
      assert CopiedInto(ItemCopies(env, g, img), dir) == if Exists(env.fs, txt) then [txt] else [] by {
        OutputDirsDistinct(env.cwd, g, g);
        ItemCopiedIntoDir(env, g, img, dir);
      }
      GroupCopiedIntoStep(env, g, files, dir);
    }
  }

  /** A group copies nothing into the folders of another group. */
  lemma {:induction false} NothingIntoOtherGroups(env: Env, g: Group, h: Group, files: seq<Path>)
    requires g != h
    ensures CopiedInto(GroupCopies(env, g, files), ImageDir(env.cwd, h)) == []
    ensures CopiedInto(GroupCopies(env, g, files), LabelDir(env.cwd, h)) == []
    decreases |files|
  {
    if files != [] {
      var init, img := files[..|files| - 1], files[|files| - 1];
      NothingIntoOtherGroups(env, g, h, init);
      assert CopiedInto(ItemCopies(env, g, img), ImageDir(env.cwd, h)) == [] by {
        OutputDirsDistinct(env.cwd, g, h);
        OutputDirsDistinct(env.cwd, h, g);
        ItemCopiedIntoDir(env, g, img, ImageDir(env.cwd, h));
      }
      assert CopiedInto(ItemCopies(env, g, img), LabelDir(env.cwd, h)) == [] by {
        OutputDirsDistinct(env.cwd, g, h);
        ItemCopiedIntoDir(env, g, img, LabelDir(env.cwd, h));
      }
      GroupCopiedIntoStep(env, g, files, ImageDir(env.cwd, h));
      GroupCopiedIntoStep(env, g, files, LabelDir(env.cwd, h));
    }
  }

  /**
   * Every copy keeps the file's name, and lands in the image folder (with an
   * image of the group as source) or in the label folder (with an existing
   * file as source) of its own group.
   */
  lemma {:induction false} CopiesKeepNamesAndGroup(env: Env, g: Group, files: seq<Path>)
    ensures forall e | e in GroupCopies(env, g, files) ::
      && e.CopyFile?
      && e.name == Name(e.src)
      && (e.dir == ImageDir(env.cwd, g) || e.dir == LabelDir(env.cwd, g))
      && (e.dir == ImageDir(env.cwd, g) ==> e.src in files)
      && (e.dir == LabelDir(env.cwd, g) ==> Exists(env.fs, e.src))
    decreases |files|
  {
    if files != [] {
      var init, img := files[..|files| - 1], files[|files| - 1];
      CopiesKeepNamesAndGroup(env, g, init);
      OutputDirsDistinct(env.cwd, g, g);
      var txt := LabelSource(env.datapath, img);
      assert Name(txt) == LabelName(img);
      forall e | e in GroupCopies(env, g, init)
        ensures e.dir == ImageDir(env.cwd, g) ==> e.src in files
      {
        assert init <= files;
      }
    }
  }

  /**
   * The pairing rule: for an image of the group, the copy of `labels/<stem>.txt`
   * into the group's label folder is issued exactly when that label exists.
   */
  lemma LabelCopyIffExists(env: Env, g: Group, files: seq<Path>, img: Path)
    requires img in files
    ensures CopyFile(LabelSource(env.datapath, img), LabelDir(env.cwd, g), LabelName(img)) in GroupCopies(env, g, files)
            <==> Exists(env.fs, LabelSource(env.datapath, img))
  {
    var txt := LabelSource(env.datapath, img);
    CopiesKeepNamesAndGroup(env, g, files);
    if Exists(env.fs, txt) {
      LabelCopyIssued(env, g, files, img);
    }
  }

  lemma {:induction false} LabelCopyIssued(env: Env, g: Group, files: seq<Path>, img: Path)
    requires img in files
    requires Exists(env.fs, LabelSource(env.datapath, img))
    ensures CopyFile(LabelSource(env.datapath, img), LabelDir(env.cwd, g), LabelName(img)) in GroupCopies(env, g, files)
    decreases |files|
  {
    var init, last := files[..|files| - 1], files[|files| - 1];
    assert files == init + [last];
    if img != last {
      LabelCopyIssued(env, g, init, img);
    }
  }

  /**
   * Over the whole run: each group's image folder receives exactly that
   * group's images, each once, and its label folder exactly the existing
   * labels of those images.
   */
  lemma PlanCopiesPerGroup(env: Env, groups: Groups<Path>, g: Group)
    ensures CopiedInto(Plan(env, groups), ImageDir(env.cwd, g)) == Members(groups, g)
    ensures CopiedInto(Plan(env, groups), LabelDir(env.cwd, g)) == ExistingLabels(env, Members(groups, g))
  {
    PlanIntoOwnFolder(env, groups, g, ImageDir(env.cwd, g));
    PlanIntoOwnFolder(env, groups, g, LabelDir(env.cwd, g));
    ImagesCopiedOnce(env, g, Members(groups, g));
    LabelsCopiedWhenPresent(env, g, Members(groups, g));
  }

  /** Only group `g` copies anything into `g`'s image or label folder. */
  lemma PlanIntoOwnFolder(env: Env, groups: Groups<Path>, g: Group, dir: Path)
    requires dir == ImageDir(env.cwd, g) || dir == LabelDir(env.cwd, g)
    ensures CopiedInto(Plan(env, groups), dir) == CopiedInto(GroupCopies(env, g, Members(groups, g)), dir)
  {
    var a := CopiedInto(GroupCopies(env, Train, groups.train), dir);
    var b := CopiedInto(GroupCopies(env, Validation, groups.val), dir);
    var c := CopiedInto(GroupCopies(env, Test, groups.test), dir);
    PlanCopiedInto(env, groups, dir);
    JoinWithEmpty(a, b, c);
    if g != Train {
      NothingIntoOtherGroups(env, Train, g, groups.train);
    }
    if g != Validation {
      NothingIntoOtherGroups(env, Validation, g, groups.val);
    }
    if g != Test {
      NothingIntoOtherGroups(env, Test, g, groups.test);
    }
  }

  /** Of three joined sequences, two of which are empty, only the third remains. */
  lemma JoinWithEmpty<T>(a: seq<T>, b: seq<T>, c: seq<T>)
    ensures a == [] && b == [] ==> a + b + c == c
    ensures a == [] && c == [] ==> a + b + c == b
    ensures b == [] && c == [] ==> a + b + c == a
  {
  }

  /** What lands in a folder from the whole plan: what lands from the train, validation and test copies, in that order. */
  lemma PlanCopiedInto(env: Env, groups: Groups<Path>, dir: Path)
    ensures CopiedInto(Plan(env, groups), dir)
            == CopiedInto(GroupCopies(env, Train, groups.train), dir)
               + CopiedInto(GroupCopies(env, Validation, groups.val), dir)
               + CopiedInto(GroupCopies(env, Test, groups.test), dir)
  {
    PlanByGroup(env, groups);
    var a := GroupCopies(env, Train, groups.train);
    var b := GroupCopies(env, Validation, groups.val);
    var c := GroupCopies(env, Test, groups.test);
    CopiedIntoAppend(a + b, c, dir);
    CopiedIntoAppend(a, b, dir);
  }

  /** Across the three image folders, the plan copies every member of every group exactly once. */
  lemma PlanCopiesEveryImage(env: Env, groups: Groups<Path>)
    ensures var plan := Plan(env, groups);
      multiset(CopiedInto(plan, ImageDir(env.cwd, Train)))
      + multiset(CopiedInto(plan, ImageDir(env.cwd, Validation)))
      + multiset(CopiedInto(plan, ImageDir(env.cwd, Test)))
      == multiset(groups.train) + multiset(groups.val) + multiset(groups.test)
  {
    PlanCopiesPerGroup(env, groups, Train);
    PlanCopiesPerGroup(env, groups, Validation);
    PlanCopiesPerGroup(env, groups, Test);
  }

  /** The plan consists of copies only; it creates no folders. */
  lemma PlanOnlyCopies(env: Env, groups: Groups<Path>)
    ensures forall i | 0 <= i < |Plan(env, groups)| :: Plan(env, groups)[i].CopyFile?
  {
    PlanByGroup(env, groups);
    CopiesKeepNamesAndGroup(env, Train, groups.train);
    CopiesKeepNamesAndGroup(env, Validation, groups.val);
    CopiesKeepNamesAndGroup(env, Test, groups.test);
    var plan := Plan(env, groups);
    forall i | 0 <= i < |plan|
      ensures plan[i].CopyFile?
    {
      assert plan[i] in plan;
    }
  }

  /** Each image folder receives as many images as its group has. */
  lemma PlanImageCounts(env: Env, groups: Groups<Path>)
    ensures |CopiedInto(Plan(env, groups), ImageDir(env.cwd, Train))| == |groups.train|
    ensures |CopiedInto(Plan(env, groups), ImageDir(env.cwd, Validation))| == |groups.val|
    ensures |CopiedInto(Plan(env, groups), ImageDir(env.cwd, Test))| == |groups.test|
  {
    PlanCopiesPerGroup(env, groups, Train);
    PlanCopiesPerGroup(env, groups, Validation);
    PlanCopiesPerGroup(env, groups, Test);
  }
}

=== FILE: partition.dfy ===
/**
 * The split allocation: how many images each group gets, and the three
 * contiguous slices of the shuffled list.
 */
module Partition {
  import opened Config

  /** Python's `int()` on a float: drops the fractional part, rounding toward zero. */
  function Trunc(x: real): (r: int)
    ensures 0.0 <= x ==> 0 <= r && r as real <= x < r as real + 1.0
    ensures x < 0.0 ==> r <= 0 && r as real - 1.0 < x <= r as real
  {
    if 0.0 <= x then x.Floor else -((-x).Floor)
  }

  /** `train_num`, `val_num` and `test_num`. */
  datatype Counts = Counts(train: int, val: int, test: int)

  /**
   * The counts for `n` images: the train and validation shares are truncated,
   * and the test group takes whatever is left, so the three always add up to `n`.
   */
  function ComputeCounts(n: nat, p: Proportions): (c: Counts)
    ensures c.train + c.val + c.test == n
  {
    var train := Trunc(n as real * p.train);
    var val := Trunc(n as real * p.val);
    Counts(train, val, n - train - val)
  }

  /** With non-negative shares the train and validation counts are the floors of their exact shares. */
  lemma CountsAreFlooredShares(n: nat, p: Proportions)
    requires 0.0 <= p.train && 0.0 <= p.val
    ensures ComputeCounts(n, p).train == (n as real * p.train).Floor
    ensures ComputeCounts(n, p).val == (n as real * p.val).Floor
    ensures 0 <= ComputeCounts(n, p).train && 0 <= ComputeCounts(n, p).val
  {
    ProductNonNegative(n as real, p.train);
    ProductNonNegative(n as real, p.val);
  }

  /**
   * With non-negative shares that add up to exactly 1, the test group is never
   * short of its share, and exceeds it by less than 2: the rounding of both
   * other groups flows into it.
   */
  lemma TestAbsorbsRemainder(n: nat, p: Proportions)
    requires 0.0 <= p.train && 0.0 <= p.val && 0.0 <= p.test
    requires Total(p) == 1.0
    ensures var c := ComputeCounts(n, p);
      && 0 <= c.train && 0 <= c.val && 0 <= c.test
      && n as real * p.test <= c.test as real < n as real * p.test + 2.0
  {
    ScaledSharesAddUp(n as real, p);
    ProductNonNegative(n as real, p.train);
    ProductNonNegative(n as real, p.val);
    ProductNonNegative(n as real, p.test);
  }

  /** The three scaled shares of a sum of exactly 1 add up to the whole. */
  lemma ScaledSharesAddUp(n: real, p: Proportions)
    requires Total(p) == 1.0
    ensures n * p.train + n * p.val + n * p.test == n
  {
    assert n * p.train + n * p.val + n * p.test == n * Total(p);
  }

  /**
   * Below a million images every sum the gate accepts keeps the test count
   * non-negative: the excess of at most 1e-6 cannot add up to a whole image.
   */
  lemma TestNonNegativeBelowMillion(n: nat, p: Proportions)
    requires 0.0 <= p.train && 0.0 <= p.val && 0.0 <= p.test
    requires ValidateSum(p).SumOk?
    requires n < 1000000
    ensures 0 <= ComputeCounts(n, p).test
    ensures ComputeCounts(n, p).train + ComputeCounts(n, p).val <= n
  {
    var x, y := n as real * p.train, n as real * p.val;
    var c := ComputeCounts(n, p);
    ProductNonNegative(n as real, p.train);
    ProductNonNegative(n as real, p.val);
    assert c.train as real <= x && c.val as real <= y;
    ScaledShareBelowNext(n, p.train + p.val);
    assert x + y == n as real * (p.train + p.val);
    assert ((c.train + c.val) as real) < n as real + 1.0;
  }

  /** Scaling `n` below a million by a share of at most 1 + 1e-6 stays below `n + 1`. */
  lemma ScaledShareBelowNext(n: nat, s: real)
    requires 0.0 <= s <= 1.0 + Tolerance
    requires n < 1000000
    ensures n as real * s < n as real + 1.0
  {
    var d := 1.0 + Tolerance - s;
    ProductNonNegative(n as real, d);
    assert n as real * s + n as real * d == n as real + n as real * Tolerance;
    assert n as real * Tolerance < 1.0;
  }

  /** The product of two non-negative reals is non-negative. */
  lemma ProductNonNegative(a: real, b: real)
    requires 0.0 <= a && 0.0 <= b
    ensures 0.0 <= a * b
  {
  }

  /**
   * The bound above is needed: 2^21 images and shares of 0.5 + 2^-21 (twice)
   * and 0 pass the gate, yet the test count comes out as -2. Every value here
   * is a binary fraction that a double holds exactly, so floating point
   * computes the same counts.
   */
  lemma ToleranceOverrun()
    ensures ValidateSum(Proportions(0.500000476837158203125, 0.500000476837158203125, 0.0)).SumOk?
    ensures ComputeCounts(2097152, Proportions(0.500000476837158203125, 0.500000476837158203125, 0.0))
            == Counts(1048577, 1048577, -2)
  {
  }

  /** Examples: 10 images at 0.7/0.2/0.1 give 7/2/1, 3 images give 2/0/1, and a test share of 0 can still get an image. */
  lemma CountExamples()
    ensures ComputeCounts(10, Proportions(0.7, 0.2, 0.1)) == Counts(7, 2, 1)
    ensures ComputeCounts(3, Proportions(0.7, 0.2, 0.1)) == Counts(2, 0, 1)
    ensures ComputeCounts(3, Proportions(0.5, 0.5, 0.0)) == Counts(1, 1, 1)
  {
  }

  /** Where a Python slice bound lands in a sequence of length `n`: negative bounds count from the end, and the result is clamped to `[0, n]`. */
  function SliceBound(i: int, n: nat): (k: nat)
    ensures k <= n
    ensures 0 <= i <= n ==> k == i
    ensures n < i ==> k == n
  {
    if i < 0 then (if i + n < 0 then 0 else i + n)
    else if n < i then n
    else i
  }

  /** Python's `s[lo:hi]` with step 1; empty when the bounds cross. */
  function PySlice<T>(s: seq<T>, lo: int, hi: int): (r: seq<T>)
    ensures |r| <= |s|
    ensures 0 <= lo <= hi <= |s| ==> r == s[lo..hi]
  {
    var a, b := SliceBound(lo, |s|), SliceBound(hi, |s|);
    if a <= b then s[a..b] else []
  }

  /** The three groups, each in shuffled order. */
  datatype Groups<T> = Groups(train: seq<T>, val: seq<T>, test: seq<T>)

  /**
   * `items[:train]`, `items[train:train + val]` and `items[train + val:]`.
   * Whatever the counts, the train group is a prefix of the list and the test
   * group a suffix of it.
   */
  function Split<T>(items: seq<T>, c: Counts): (g: Groups<T>)
    ensures g.train <= items
    ensures |g.test| <= |items| && g.test == items[|items| - |g.test|..]
  {
    Groups(PySlice(items, 0, c.train),
           PySlice(items, c.train, c.train + c.val),
           PySlice(items, c.train + c.val, |items|))
  }

  /**
   * Whenever the train and validation counts are non-negative, the three
   * slices put back together give the list again, in order: every position
   * lands in exactly one group. This holds even when the counts overshoot the
   * list, because slicing clamps.
   */
  lemma SplitConcatenates<T>(items: seq<T>, c: Counts)
    requires 0 <= c.train && 0 <= c.val
    ensures var g := Split(items, c); g.train + g.val + g.test == items
  {
    var n := |items|;
    var a := if c.train <= n then c.train else n;
    var b := if c.train + c.val <= n then c.train + c.val else n;
    var g := Split(items, c);
    assert g.train == items[..a];
    assert g.val == items[a..b];
    assert g.test == items[b..];
    assert items[..a] + items[a..b] + items[b..] == items;
  }

  /** When the first two counts fit in the list, each slice is exactly as long as its count. */
  lemma SplitLengths<T>(items: seq<T>, c: Counts)
    requires 0 <= c.train && 0 <= c.val && c.train + c.val <= |items|
    ensures |Split(items, c).train| == c.train
    ensures |Split(items, c).val| == c.val
    ensures |Split(items, c).test| == |items| - c.train - c.val
  {
  }

  /** For shares that are non-negative and add up to exactly 1, the groups have the computed sizes. */
  lemma GroupSizesMatchCounts<T>(items: seq<T>, p: Proportions)
    requires 0.0 <= p.train && 0.0 <= p.val && 0.0 <= p.test
    requires Total(p) == 1.0
    ensures var c := ComputeCounts(|items|, p); var g := Split(items, c);
      |g.train| == c.train && |g.val| == c.val && |g.test| == c.test
  {
    TestAbsorbsRemainder(|items|, p);
    SplitLengths(items, ComputeCounts(|items|, p));
  }

  /** Splitting any ordering of the input hands out every input item exactly as often as it occurs. */
  lemma GroupsArePermutation<T>(items: seq<T>, order: seq<T>, c: Counts)
    requires multiset(order) == multiset(items)
    requires 0 <= c.train && 0 <= c.val
    ensures var g := Split(order, c);
      multiset(g.train) + multiset(g.val) + multiset(g.test) == multiset(items)
  {
    SplitConcatenates(order, c);
    var g := Split(order, c);
    calc {
      multiset(g.train) + multiset(g.val) + multiset(g.test);
      multiset(g.train + g.val) + multiset(g.test);
      multiset(g.train + g.val + g.test);
    }
  }

  /** No item occurs twice (the discovered paths are unique). */
  ghost predicate Distinct<T>(s: seq<T>)
  {
    forall x | x in s :: multiset(s)[x] == 1
  }

  /** For distinct items, the groups are pairwise disjoint and together hold exactly the input. */
  lemma GroupsPartitionInput<T>(items: seq<T>, order: seq<T>, c: Counts)
    requires Distinct(items)
    requires multiset(order) == multiset(items)
    requires 0 <= c.train && 0 <= c.val
    ensures var g := Split(order, c);
      && (forall x :: x in g.train ==> x !in g.val && x !in g.test)
      && (forall x :: x in g.val ==> x !in g.test)
      && (forall x :: x in items <==> x in g.train || x in g.val || x in g.test)
  {
    GroupsArePermutation(items, order, c);
    var g := Split(order, c);
    var m := multiset(g.train) + multiset(g.val) + multiset(g.test);
    forall x | x in g.train
      ensures x !in g.val && x !in g.test
    {
      assert x in items by { assert x in m; }
      assert multiset(items)[x] == 1;
    }
    forall x | x in g.val
      ensures x !in g.test
    {
      assert x in items by { assert x in m; }
      assert multiset(items)[x] == 1;
    }
    forall x
      ensures x in items <==> x in g.train || x in g.val || x in g.test
    {
      assert x in items <==> x in m;
    }
  }
}

=== FILE: paths.dfy ===
/**
 * Paths, the two pathlib accessors the split script uses (`name` and `stem`),
 * and a snapshot of the file system that stands for `os.path.isdir` and
 * `os.path.exists`.
 */
module Paths {

  /** A path as its sequence of components: `["ds", "images", "a.jpg"]` is `ds/images/a.jpg`. */
  type Path = seq<string>

  /** The final component of a path (pathlib's `name`); empty for the empty path. */
  function Name(p: Path): (n: string)
    ensures p != [] ==> p == p[..|p| - 1] + [n]
  {
    if p == [] then "" else p[|p| - 1]
  }

  /** The index of the last '.' in `s`, or -1 when there is none (`str.rfind('.')`). */
  function LastDot(s: string): (i: int)
    ensures -1 <= i < |s|
    ensures 0 <= i ==> s[i] == '.'
    ensures forall k :: i < k < |s| ==> s[k] != '.'
  {
    if s == [] then -1
    else if s[|s| - 1] == '.' then |s| - 1
    else LastDot(s[..|s| - 1])
  }

  /**
   * pathlib's `stem`: the name without its final suffix. The suffix starts at
   * the last '.', and only counts when that '.' is neither the first nor the
   * last character of the name (`.bashrc` and `a.` have no suffix).
   */
  function Stem(name: string): (r: string)
    ensures r <= name
    ensures r != name ==> 0 < |r| < |name| - 1 && name[|r|] == '.' && '.' !in name[|r| + 1..]
    ensures r == name ==> forall k | 0 < k < |name| - 1 && name[k] == '.' :: '.' in name[k + 1..]
  {
    var i := LastDot(name);
    if 0 < i < |name| - 1 then name[..i] else name
  }

  /** What the script can observe of the disk: which paths are folders and which are files. */
  datatype FileSystem = FileSystem(dirs: set<Path>, files: set<Path>)

  /** `os.path.isdir`. */
  predicate IsDir(fs: FileSystem, p: Path)
  {
    p in fs.dirs
  }

  /** `os.path.exists`: true of folders and files alike. */
  predicate Exists(fs: FileSystem, p: Path)
  {
    p in fs.dirs || p in fs.files
  }
}

=== FILE: pipeline.dfy ===
/**
 * One run of the split script as a linear pipeline: the sum gate, the data
 * root gate, the creation of the six output folders, the shuffle, the counts,
 * the slices and the copies. The run is described by the effects it has on
 * the disk, in order.
 */
module Pipeline {
  import opened Paths
  import opened Config
  import opened Partition
  import opened Shuffle
  import opened CopyPlan

  /** How a run ends: one of the two fatal errors, or done with the counts it reports. */
  datatype Outcome = ConfigError(total: real) | NotFoundError | Done(counts: Counts)

  /**
   * The outcome of a run: a bad sum stops it first (reporting the sum), a data
   * root that is not a folder stops it next, and otherwise it completes with
   * the counts for the images found.
   */
  function RunOutcome(p: Proportions, env: Env, images: seq<Path>): (o: Outcome)
    ensures o.ConfigError? <==> !(1.0 - Tolerance <= Total(p) <= 1.0 + Tolerance)
    ensures o.ConfigError? ==> o.total == Total(p)
    ensures o.NotFoundError? <==> 1.0 - Tolerance <= Total(p) <= 1.0 + Tolerance && !IsDir(env.fs, env.datapath)
    ensures o.Done? ==> o.counts.train + o.counts.val + o.counts.test == |images|
  {
    match ValidateSum(p)
    case SumError(total) => ConfigError(total)
    case SumOk =>
      if !IsDir(env.fs, env.datapath) then NotFoundError
      else Done(ComputeCounts(|images|, p))
  }

  /** Creating the folders `dirs`, one after the other. */
  function MakeAll(dirs: seq<Path>): (r: seq<Effect>)
    ensures |r| == |dirs|
    ensures forall i | 0 <= i < |dirs| :: r[i] == MakeDirs(dirs[i])
  {
    seq(|dirs|, i requires 0 <= i < |dirs| => MakeDirs(dirs[i]))
  }

  /** The effects of a run, in order: none when a gate stops it. */
  function RunLog(p: Proportions, env: Env, images: seq<Path>, draw: nat -> nat): (log: seq<Effect>)
    requires ValidDraws(draw)
    ensures !RunOutcome(p, env, images).Done? ==> log == []
  {
    if !RunOutcome(p, env, images).Done? then []
    else
      var order := Shuffled(images, draw);
      MakeAll(OutputDirs(env.cwd)) + Plan(env, Split(order, ComputeCounts(|images|, p)))
  }

  /** The script, step by step. */
  method Run(p: Proportions, env: Env, images: seq<Path>, draw: nat -> nat) returns (outcome: Outcome, log: seq<Effect>)
    requires ValidDraws(draw)
    ensures outcome == RunOutcome(p, env, images)
    ensures log == RunLog(p, env, images, draw)
  {
    var check := ValidateSum(p);
    if check.SumError? {
      return ConfigError(check.total), [];
    }
    if !IsDir(env.fs, env.datapath) {
      return NotFoundError, [];
    }

    log := MakeOutputDirs(env.cwd);
    var order := ShuffleImages(images, draw);
    var counts := ComputeCounts(|order|, p);
    var groups := Split(order, counts);
    var copies := CopyAll(env, groups);
    log := log + copies;
    outcome := Done(counts);
  }

  /** The discovered images become a list, which is shuffled in place. */
  method ShuffleImages(images: seq<Path>, draw: nat -> nat) returns (order: seq<Path>)
    requires ValidDraws(draw)
    ensures order == Shuffled(images, draw)
    ensures multiset(order) == multiset(images)
  {
    var files := new Path[|images|](i requires 0 <= i < |images| => images[i]);
    assert files[..] == images;
    ShuffleInPlace(files, draw);
    order := files[..];
  }

  /** The folder-creation loop: each of the six output folders, in order. */
  method MakeOutputDirs(cwd: Path) returns (log: seq<Effect>)
    ensures log == MakeAll(OutputDirs(cwd))
  {
    var dirs := OutputDirs(cwd);
    log := [];
    for i := 0 to |dirs|
      invariant log == MakeAll(dirs[..i])
    {
      log := log + [MakeDirs(dirs[i])];
    }
    assert dirs[..|dirs|] == dirs;
  }

  /** A log of folder creations holds no copies. */
  lemma {:induction false} NoCopiesInMakeDirs(log: seq<Effect>, dir: Path)
    requires forall e | e in log :: e.MakeDirs?
    ensures CopiedInto(log, dir) == []
    decreases |log|
  {
    if log != [] {
      assert log[|log| - 1] in log;
      assert forall e | e in log[..|log| - 1] :: e in log;
      NoCopiesInMakeDirs(log[..|log| - 1], dir);
    }
  }

  /** In a completed run, what lands in any folder is what the plan for the shuffled groups copies there. */
  lemma RunCopiedInto(p: Proportions, env: Env, images: seq<Path>, draw: nat -> nat, dir: Path)
    requires ValidDraws(draw)
    requires RunOutcome(p, env, images).Done?
    ensures CopiedInto(RunLog(p, env, images, draw), dir)
            == CopiedInto(Plan(env, Split(Shuffled(images, draw), ComputeCounts(|images|, p))), dir)
  {
    var mk := MakeAll(OutputDirs(env.cwd));
    var plan := Plan(env, Split(Shuffled(images, draw), ComputeCounts(|images|, p)));
    CopiedIntoAppend(mk, plan, dir);
    NoCopiesInMakeDirs(mk, dir);
  }

  /**
   * A completed run creates all six output folders first, and only then
   * copies: every later effect is a copy.
   */
  lemma DirsBeforeCopies(p: Proportions, env: Env, images: seq<Path>, draw: nat -> nat)
    requires ValidDraws(draw)
    requires RunOutcome(p, env, images).Done?
    ensures var log := RunLog(p, env, images, draw);
      && 6 <= |log|
      && (forall i | 0 <= i < 6 :: log[i] == MakeDirs(OutputDirs(env.cwd)[i]))
      && (forall i | 6 <= i < |log| :: log[i].CopyFile?)
  {
    var groups := Split(Shuffled(images, draw), ComputeCounts(|images|, p));
    var log := RunLog(p, env, images, draw);
    var plan := Plan(env, groups);
    PlanOnlyCopies(env, groups);
    assert log == MakeAll(OutputDirs(env.cwd)) + plan;
    forall i | 6 <= i < |log|
      ensures log[i].CopyFile?
    {
      assert log[i] == plan[i - 6];
    }
  }

  /**
   * With non-negative train and validation shares, a completed run copies
   * every discovered image exactly once across the three image folders
   * (as often as it was discovered).
   */
  lemma EveryImageCopiedOnce(p: Proportions, env: Env, images: seq<Path>, draw: nat -> nat)
    requires ValidDraws(draw)
    requires 0.0 <= p.train && 0.0 <= p.val
    requires RunOutcome(p, env, images).Done?
    ensures var log := RunLog(p, env, images, draw);
      multiset(CopiedInto(log, ImageDir(env.cwd, Train)))
      + multiset(CopiedInto(log, ImageDir(env.cwd, Validation)))
      + multiset(CopiedInto(log, ImageDir(env.cwd, Test)))
      == multiset(images)
  {
    var c := ComputeCounts(|images|, p);
    var order := Shuffled(images, draw);
    var groups := Split(order, c);
    CountsAreFlooredShares(|images|, p);
    GroupsArePermutation(images, order, c);
    RunCopiedInto(p, env, images, draw, ImageDir(env.cwd, Train));
    RunCopiedInto(p, env, images, draw, ImageDir(env.cwd, Validation));
    RunCopiedInto(p, env, images, draw, ImageDir(env.cwd, Test));
    PlanCopiesEveryImage(env, groups);
  }

  /**
   * For shares that are non-negative and add up to exactly 1, each image
   * folder of a completed run receives exactly as many images as the count
   * the run reports for that group.
   */
  lemma ReportedCountsMatchCopies(p: Proportions, env: Env, images: seq<Path>, draw: nat -> nat)
    requires ValidDraws(draw)
    requires 0.0 <= p.train && 0.0 <= p.val && 0.0 <= p.test
    requires Total(p) == 1.0
    requires IsDir(env.fs, env.datapath)
    ensures RunOutcome(p, env, images).Done?
    ensures var c := RunOutcome(p, env, images).counts; var log := RunLog(p, env, images, draw);
      && |CopiedInto(log, ImageDir(env.cwd, Train))| == c.train
      && |CopiedInto(log, ImageDir(env.cwd, Validation))| == c.val
      && |CopiedInto(log, ImageDir(env.cwd, Test))| == c.test
  {
    var c := ComputeCounts(|images|, p);
    var order := Shuffled(images, draw);
    var groups := Split(order, c);
    assert ValidateSum(p).SumOk?;
    assert RunOutcome(p, env, images) == Done(c);
    GroupSizesMatchCounts(order, p);
    RunCopiedInto(p, env, images, draw, ImageDir(env.cwd, Train));
    RunCopiedInto(p, env, images, draw, ImageDir(env.cwd, Validation));
    RunCopiedInto(p, env, images, draw, ImageDir(env.cwd, Test));
    PlanImageCounts(env, groups);
  }

  /**
   * In a completed run, each group's label folder receives exactly the labels
   * that exist for that group's images; images without a label are copied
   * alone, and the run still completes.
   */
  lemma LabelsFollowTheirImages(p: Proportions, env: Env, images: seq<Path>, draw: nat -> nat, g: Group)
    requires ValidDraws(draw)
    requires RunOutcome(p, env, images).Done?
    ensures var groups := Split(Shuffled(images, draw), ComputeCounts(|images|, p));
      var log := RunLog(p, env, images, draw);
      && CopiedInto(log, ImageDir(env.cwd, g)) == Members(groups, g)
      && CopiedInto(log, LabelDir(env.cwd, g)) == ExistingLabels(env, Members(groups, g))
  {
    var groups := Split(Shuffled(images, draw), ComputeCounts(|images|, p));
    RunCopiedInto(p, env, images, draw, ImageDir(env.cwd, g));
    RunCopiedInto(p, env, images, draw, LabelDir(env.cwd, g));
    PlanCopiesPerGroup(env, groups, g);
  }
}

=== FILE: shuffle.dfy ===
/**
 * `random.shuffle`: CPython's in-place Fisher-Yates shuffle, walking from the
 * back of the list and swapping each position with one drawn at or before it.
 * The random draws are a parameter: `draw(i)` is the index the generator picks
 * at step `i`, which is at most `i`.
 */
module Shuffle {

  /** A source of draws as the generator gives them: at step `i`, an index in `[0, i]`. */
  ghost predicate ValidDraws(draw: nat -> nat)
  {
    forall i: nat :: draw(i) <= i
  }

  /** `s` with the elements at `i` and `j` exchanged. */
  function Swap<T>(s: seq<T>, i: nat, j: nat): (r: seq<T>)
    requires i < |s| && j < |s|
    ensures |r| == |s|
  {
    s[i := s[j]][j := s[i]]
  }

  /** Exchanging two elements keeps every element and its number of occurrences. */
  lemma SwapPermutes<T>(s: seq<T>, i: nat, j: nat)
    requires i < |s| && j < |s|
    ensures multiset(Swap(s, i, j)) == multiset(s)
  {
    var t := s[i := s[j]];
    assert multiset(t) == multiset(s) - multiset{s[i]} + multiset{s[j]};
    assert multiset(t[j := s[i]]) == multiset(t) - multiset{t[j]} + multiset{s[i]};
  }

  /** The list after the steps `i`, `i - 1`, ..., 1 of the shuffle have run on `s`. */
  function FisherYates<T>(s: seq<T>, i: int, draw: nat -> nat): (r: seq<T>)
    requires i < |s|
    requires ValidDraws(draw)
    ensures |r| == |s|
    decreases i
  {
    if i < 1 then s else FisherYates(Swap(s, i, draw(i)), i - 1, draw)
  }

  /** Whatever the draws, the shuffle returns a permutation of its input. */
  lemma {:induction false} FisherYatesPermutes<T>(s: seq<T>, i: int, draw: nat -> nat)
    requires i < |s|
    requires ValidDraws(draw)
    ensures multiset(FisherYates(s, i, draw)) == multiset(s)
    decreases i
  {
    if 1 <= i {
      SwapPermutes(s, i, draw(i));
      FisherYatesPermutes(Swap(s, i, draw(i)), i - 1, draw);
    }
  }

  /** The whole shuffle of a list. */
  function Shuffled<T>(s: seq<T>, draw: nat -> nat): (r: seq<T>)
    requires ValidDraws(draw)
    ensures |r| == |s|
    ensures multiset(r) == multiset(s)
  {
    FisherYatesPermutes(s, |s| - 1, draw);
    FisherYates(s, |s| - 1, draw)
  }

  /** Shuffles `a` in place, exactly as the generator's draws dictate. */
  method ShuffleInPlace<T>(a: array<T>, draw: nat -> nat)
    requires ValidDraws(draw)
    modifies a
    ensures a[..] == Shuffled(old(a[..]), draw)
    ensures multiset(a[..]) == multiset(old(a[..]))
  {
    var i := a.Length - 1;
    while 1 <= i
      invariant -1 <= i < a.Length
      invariant FisherYates(a[..], i, draw) == Shuffled(old(a[..]), draw)
      decreases i
    {
      var j := draw(i);
      ghost var before := a[..];
      a[i], a[j] := a[j], a[i];
      assert a[..] == Swap(before, i, j);
      i := i - 1;
    }
  }
}
